=== FILE: README.md ===
# Weather-subscription core in Dafny

A model of the core of a weather-alert subscription service. Users subscribe
an email address to hourly or daily weather updates for a city. They confirm
through an emailed link and get recurring updates until they unsubscribe.
The model covers:

- the subscription lifecycle (create → confirm → unsubscribe) over the
  subscription collection;
- the scheduler's registry of recurring jobs, one per confirmed subscription,
  keyed by the subscription's id;
- the email service's links and message records;
- the subscription schema's defaults and required fields;
- the one database migration.

Everything is an immutable value. A service state is `Service(store, jobs)`:
a map from id to `Subscription` (with the next id to hand out) and a map from
id to `Job`. Each operation is a pure function. It returns the new state, the
messages it handed to the mailer, and a `Result`: a resolved value or one of
the service's errors (`Conflict`, `NotFound`, `ValidationFailed`, `Upstream`).

Effects that the model cannot see are parameters:

- HMAC-SHA256 under the process secret is an arbitrary `string -> string`.
- The mail transport is a `Delivery` outcome.
- The weather lookup is a `string -> Result<Weather>`.
- The database outcome of a migration run is a `DbOutcome`.

Modules follow the source files:

- `Base`: shared types (`src/types`).
- `Text`: lower-casing.
- `Schema`: `subscription.schema.ts`.
- `Store`: the Mongoose model calls the services make.
- `Email`: `email.service.ts`.
- `Scheduler`: `scheduler.service.ts`.
- `SubscriptionService`: `subscription.service.ts`.
- `Migration`: `database-migration.service.ts`.
- `Lifecycle`: the cross-component invariant and multi-call properties.

The central invariant is `Lifecycle.Invariant`:

- the job keys are exactly the ids of confirmed documents;
- each job was built from its document;
- no two documents share a token;
- every document sits under its own id.

Bootstrap establishes the coupling of jobs to confirmed documents for any
collection, and the whole invariant when the collection's tokens are unique;
create, confirm, unsubscribe and the migration
all preserve it. Create as written preserves it only when the request body
does not itself set `confirmed: true` (see Findings).

Where the code and its tests or design disagree, the model follows the code:

- `createSubscription` never asks the weather service whether the city
  exists. Its unit tests expect a city check and a `BadRequestException`
  (src/subscription/__test__/subscription.service.spec.ts:116, 145-156).
  The model stores any city.
- `createSubscription` calls `sendConfirmationEmail(email, token)` against
  the signature `(email, city, token)`. The unit test expects three
  arguments. See Findings.
- `save()` in `createSubscription` is not awaited, so the confirmation email
  does not wait for the save. In both models the save is taken to settle
  before the email is sent. See Findings.
- `createSubscription` builds the document by spreading the request body, so
  a body that carries `confirmed` or `migrationVersion` sets them on the new
  document. The corrected model keeps only the DTO's three fields. See
  Findings.

## Model

| member | source | states |
|---|---|---|
| Schema.NewRecord | src/subscription/schema/subscription.schema.ts:9-25 | A new document stores the email lower-cased (equal to the request's email up to case) and keeps city and frequency. `confirmed` and `migrationVersion` take the values the input sets, else the defaults `false` and `0` |
| Schema.WhitelistIgnoresExtras | src/subscription/types/subscription.dto.ts:4-13 | A document built from the DTO's declared properties is the same for any two bodies that agree on email, city and frequency, whatever else they carry; it is unconfirmed and at version 0 |
| Schema.Validate | src/subscription/schema/subscription.schema.ts:9-16 | A save is accepted exactly when email and city are non-empty. A rejection lists precisely the empty required paths, and only "email" or "city" can appear |
| Text.LowerIsLowerCase | src/subscription/schema/subscription.schema.ts:9 | Lower-casing leaves no upper-case letter and is idempotent |
| Store.FindOne | src/subscription/subscription.service.ts:28-30 | `findOne({token})` yields null exactly when no document has the token, else the stored document with that token that comes first in natural order |
| Store.FindOneUnique | src/subscription/subscription.service.ts:43 | With unique tokens, a token finds the one document that carries it |
| Store.Save | src/subscription/subscription.service.ts:33-36 | Saving writes the document under its id and leaves every other document as it was |
| Store.DeleteById | src/subscription/subscription.service.ts:60 | `findByIdAndDelete` removes exactly that id, leaves the other documents unchanged, and yields the removed document |
| Email.AppUrlOfLocalConfig | src/email/email.service.ts:13 | With HOST "http://localhost" and PORT "3000", the base URL is "http://localhost:3000", and the confirm and unsubscribe links are the ones the email service's tests expect |
| Email.LinkToken | src/email/email.service.ts:17 | A link that reads as a token is exactly `appUrl + route + token` |
| Email.LinkRoundTrip | src/email/email.service.ts:17 | Reading a link built from a token gives back that token |
| Email.RoutesDistinct | src/email/email.service.ts:17-37 | A confirmation link never reads as an unsubscribe link, and the reverse |
| Email.SendConfirmationEmail | src/email/email.service.ts:16-27 | The message goes to the given email with the fixed subject and `./confirmation` template; its context holds the city and a link that reads back as the token |
| Email.SendWeatherUpdateEmail | src/email/email.service.ts:29-51 | The message goes to the given email with subject "Weather update for " + city and the `./weather-update` template; it passes the weather triple through unchanged and holds an unsubscribe link that reads back as the token |
| Scheduler.FrequencyOf | src/scheduler/scheduler.service.ts:25-28 | Only the two table patterns read back as a frequency, each as the one that maps to it |
| Scheduler.CronPatternRoundTrip | src/scheduler/scheduler.service.ts:25-28 | HOURLY maps to "0 * * * *" and DAILY to "0 9 * * *", and each pattern reads back as its frequency |
| Scheduler.AddThenDelete | src/scheduler/scheduler.service.ts:39-57 | Adding a job under a free name is accepted, and deleting it afterwards gives back the original registry |
| Scheduler.DeleteFreesName | src/scheduler/scheduler.service.ts:39-57 | Deleting a registered job is accepted and frees its name: the next add under it is accepted and leaves the new job there, other jobs unchanged |
| Scheduler.AddWithoutDeleteFails | src/scheduler/scheduler.service.ts:39-41 | Without deleting first, re-adding under a taken name is refused |
| Scheduler.Schedule | src/scheduler/scheduler.service.ts:36-59 | Afterwards the id has exactly one job, started, with the frequency's pattern and the subscription's email, city and token; every other id's job is unchanged |
| Scheduler.ScheduleIdempotent | src/scheduler/scheduler.service.ts:36-59 | Scheduling the same subscription twice leaves the same registry as scheduling it once |
| Scheduler.Remove | src/scheduler/scheduler.service.ts:61-66 | The id's job is gone, other jobs are unchanged, and an absent id leaves the registry as it was |
| Scheduler.RemoveAfterSchedule | src/scheduler/scheduler.service.ts:36-66 | Removing after scheduling equals removing alone; for a new id it restores the registry |
| Scheduler.OnModuleInit | src/scheduler/scheduler.service.ts:31-34 | Every confirmed document gets its started job, no other id is touched, and the ids are scheduled once each, in increasing order |
| Scheduler.Tick | src/scheduler/scheduler.service.ts:45-55 | A firing fails when the lookup for the job's city fails. Otherwise it mails the job's email with the city, the fetched temperature, humidity and description, and an unsubscribe link carrying the job's token. It resolves exactly when the mail is delivered, and an undeliverable mail's reason is the firing's error |
| SubscriptionService.TokenIgnoresCase | src/subscription/subscription.service.ts:63-68 | The token is the same for an (email, city) pair and for its lower-cased form |
| SubscriptionService.TokenKeyInjective | src/subscription/subscription.service.ts:63-68 | Two pairs share a token key exactly when they agree up to letter case (for emails without ':') |
| SubscriptionService.Create | src/subscription/subscription.service.ts:26-40 | Rejects as "Email already subscribed" exactly when the token is taken, changing nothing. A rejected save sends nothing. Otherwise, with email and city given, it adds exactly one unconfirmed document under a fresh id and mails the subscriber a link carrying the token. It resolves with that document exactly when the mail is delivered, and an undeliverable mail's reason is its error. Jobs are untouched |
| SubscriptionService.CreateAsWritten | src/subscription/subscription.service.ts:26-40 | As written: the duplicate check is the same, but the mail goes out even when the save is rejected, its city is the token, and its link carries "undefined". A saved document takes `confirmed` and `migrationVersion` from the body when it sets them |
| SubscriptionService.Confirm | src/subscription/subscription.service.ts:42-52 | An unknown token gives "Subscription not found". A confirmed record gives "Already confirmed". Both leave everything unchanged. Otherwise (found and unconfirmed) the call always resolves, with the found record now confirmed. That version is saved, and it has a started job; other jobs are unchanged |
| SubscriptionService.Unsubscribe | src/subscription/subscription.service.ts:54-61 | An unknown token gives "Token not found" and changes nothing. Otherwise the document removed is the one `findOne` returns (the first with the token in natural order); exactly its job and document are removed; all other jobs and documents are untouched |
| Migration.Migration0 | src/database/database-migration.service.ts:26-37 | Afterwards every document has a version. A missing one becomes 0, documents that had one are untouched, no other field changes, and the set of ids is the same |
| Migration.Migration0Idempotent | src/database/database-migration.service.ts:26-37 | Running the migration twice equals running it once |
| Migration.RunMigrations | src/database/database-migration.service.ts:16-24 | No failure reaches the caller: success applies migration 0 to the collection and logs completion, leaving every document versioned; a failure is logged and leaves the collection unchanged |
| Lifecycle.Boot | src/scheduler/scheduler.service.ts:31-34 | Bootstrapping any collection yields job keys equal to the confirmed ids, each job built from its document; with unique tokens the whole invariant holds |
| Lifecycle.CreatePreservesInvariant | src/subscription/schema/subscription.schema.ts:18-19 | Create keeps "job keys = confirmed ids" (the new document is unconfirmed) and token uniqueness (the duplicate check) |
| Lifecycle.CreateAsWrittenInvariant | src/subscription/subscription.service.ts:26-36 | As written, create keeps the invariant exactly when it does not save a new document whose body set `confirmed: true`; such a document is confirmed but has no job |
| Lifecycle.ConfirmPreservesInvariant | src/subscription/subscription.service.ts:47-50 | Confirm keeps "job keys = confirmed ids" and token uniqueness |
| Lifecycle.UnsubscribePreservesInvariant | src/subscription/subscription.service.ts:58-60 | Unsubscribe keeps "job keys = confirmed ids" and token uniqueness |
| Lifecycle.RunMigrationsPreservesInvariant | src/database/database-migration.service.ts:16-24 | The migration run the application performs at start keeps "job keys = confirmed ids" and token uniqueness, whether the database call succeeds or fails |
| Lifecycle.MigrationPreservesInvariant | src/database/database-migration.service.ts:33-36 | The migration keeps "job keys = confirmed ids" and token uniqueness |
| Lifecycle.ConfirmTwiceFails | src/subscription/subscription.service.ts:45-46 | After a successful confirm, confirming again gives "Already confirmed" and changes nothing |
| Lifecycle.UnsubscribeTwiceFails | src/subscription/subscription.service.ts:55-60 | Under the invariant (which includes token uniqueness), after a successful unsubscribe, both a second unsubscribe and a confirm of that token are rejected as not found |
| Lifecycle.CreateTwiceConflicts | src/subscription/subscription.service.ts:27-31 | Once a create has saved its document, a create for the same email and city is a conflict that sends nothing and changes nothing. Case and frequency do not matter, and neither does whether the first mail was delivered |
| Lifecycle.CreateAsWrittenTwiceConflicts | src/subscription/subscription.service.ts:27-31 | As written too, once a create has saved its document, a create for the same email and city is a conflict that sends nothing and changes nothing |
| Lifecycle.ConfirmationLinkConfirms | src/subscription/subscription.service.ts:33-38 | Under the invariant (which includes token uniqueness), following the link a successful create mailed confirms exactly the new document and schedules its job |
| Lifecycle.AsWrittenConfirmationLinkFails | src/subscription/subscription.service.ts:38 | As written, the mailed link carries "undefined", and following it is rejected as not found |
| Lifecycle.AsWrittenMailsOnRejectedSave | src/subscription/subscription.service.ts:33-39 | As written, a create with an empty city mails a confirmation yet saves nothing; the corrected create mails nothing |
| Lifecycle.UpdateLinkUnsubscribes | src/scheduler/scheduler.service.ts:45-55 | Under the invariant (which includes token uniqueness), following the unsubscribe link in any update a live job mails removes exactly that job and its document |
| Lifecycle.LifecycleScenario | src/subscription/subscription.service.ts:26-61 | From empty: subscribe (a@x.com, London, daily) gives an unconfirmed record. Confirm then registers one "0 9 * * *" job. Unsubscribe leaves no job and no document, and a later confirm is not found |

## Left out

- Token hashing: the internals of HMAC-SHA256 and the read of the secret from the environment. The hash is an arbitrary function of the key string, so every token property holds for any secret.
- Text.LowerIsLowerCase: lower-casing folds only the ASCII letters A-Z. JavaScript's `toLowerCase` also folds other Unicode letters.
- The weather service: an HTTP call with floating-point field projection. The model takes the lookup as a parameter that returns a triple or fails. It does not model the missing `isCityValid` or any city check on create.
- Real cron timing: when patterns fire, when `job.start` takes effect, and in-flight ticks racing a cancellation. Jobs are values; a firing is `Scheduler.Tick`.
- Scheduler.Tick: a failed firing is an outcome of that firing only. The unhandled rejection it becomes in the source, and its logging, are not modelled.
- Email.SendWeatherUpdateEmail: the `timestamp` context field (`new Date().toLocaleString()`) is not modelled.
- Concurrency: two overlapping creates for the same pair, and requests that interleave with ticks. Every operation runs to completion before the next.
- Database failures in `findOne`, `save`, `findByIdAndDelete` and `find`. They would reject the call; only the migration run models them.
- SubscriptionService.Confirm: the re-validation of the confirmed document on save is not modelled. Documents in the collection passed validation when inserted.
- Migration.RunMigrations: a failing database call is taken to write nothing. A partial `updateMany` is not modelled.
- Job names: the registry is keyed by the id itself rather than `_id.toString()`, which is one-to-one on ids.
- Email.LinkToken: it reads any suffix after the route as a token, including one holding '/', '?' or '#' and the empty one. Express's `:token` parameter would not match those. Real tokens are hex digests, so the difference does not arise for them. The reading also takes the controller's routes to be mounted under `/api`, as the mailed links assume. The controller declares `@Controller('')` with `confirm/:token` and `unsubscribe/:token` (src/subscription/subscription.controller.ts:13, 23, 28), and the end-to-end test requests `/confirm/...` and `/unsubscribe/...` (test/subscription.e2e-spec.ts:150, 200). So a mailed link reaches the handler only if the application's bootstrap in `main.ts`, outside the model, installs an `api` global prefix. The lemmas about following a link hold under that assumption.
- Unhandled rejection: as written, the rejected save promise is unobserved while the mail is in flight. Under Node's default, an unhandled rejection can end the process. The model records only the call's outcome.
- SubscriptionService.CreateAsWritten: of the body's extra properties, only `confirmed` and `migrationVersion` are modelled. A body-supplied `_id` and properties outside the schema are not.
- Natural order: ids are handed out in increasing order, so `findOne` and `find` return documents in id order.
- Plumbing: controllers, NestJS modules and dependency injection, Mongoose connections and queries, `timestamps`, class-validator request checks (`IsEmail`, `IsString`, `IsEnum`), static serving, and mailer transport configuration.
- The frequency enumeration's string values: `src/types/index.ts` as modelled does not define `SubscriptionFrequency`. Frequency is a two-valued datatype, so the schema's enum restriction holds by typing.

## Findings

| source | as written | input that shows it | evidently intended | confidence | as-written member | corrected member |
|---|---|---|---|---|---|---|
| src/subscription/subscription.service.ts:38 | `sendConfirmationEmail(email, token)` against the signature `(email, city, token)`: the city parameter receives the token, the token parameter is undefined, and the link ends in `/api/confirm/undefined` | any new subscription, e.g. email a@x.com, city London, into an empty collection | `sendConfirmationEmail(email, city, token)`: the link carries the token, and following it confirms the subscription (with the routes mounted under `/api`, see Left out) | not executed; high for the emitted JavaScript, which binds a missing argument to undefined, and the unit test expects three arguments. The TypeScript compiler rejects the call with TS2554 ("Expected 3 arguments, but got 2"), so the behaviour arises only where the build still emits JavaScript despite type errors | SubscriptionService.CreateAsWritten, Lifecycle.AsWrittenConfirmationLinkFails | SubscriptionService.Create, Lifecycle.ConfirmationLinkConfirms |
| src/subscription/subscription.service.ts:33-39 | `save()` is not awaited, so the confirmation email is sent even when the schema rejects the document | email a@x.com with city "" (accepted by the request's `IsString` check, rejected by the schema's `required`) | await the save and send the email only for a saved document | not executed; medium | SubscriptionService.CreateAsWritten, Lifecycle.AsWrittenMailsOnRejectedSave | SubscriptionService.Create |
| src/subscription/subscription.service.ts:33-35 | `new this.subscriptionModel({...subscription, token})` spreads the whole request body, so body-supplied `confirmed` and `migrationVersion` are stored | body {email a@x.com, city London, frequency daily, confirmed: true} through the non-whitelisting `ValidationPipe` the end-to-end test installs: a confirmed document is saved, and no job exists for it until the next process start | build the document from the DTO's email, city and frequency only | not executed; medium (depends on the pipe options the application's bootstrap in `main.ts` installs, which are outside the model) | SubscriptionService.CreateAsWritten, Lifecycle.CreateAsWrittenInvariant | SubscriptionService.Create, Lifecycle.CreatePreservesInvariant |

=== FILE: base.dfy ===
/** Vocabulary shared by every component of the weather-subscription service:
    the subscription frequency, the weather triple returned by the provider,
    the error taxonomy the services throw, and a Result type standing in for a
    promise that either resolves or rejects. */
module Base {

  datatype Option<+T> = None | Some(value: T)

  /** The failures the core produces or passes through. */
  datatype Error =
    | Conflict(message: string)           // HTTP 409 (ConflictException)
    | NotFound(message: string)           // HTTP 404 (NotFoundException)
    | ValidationFailed(paths: seq<string>) // a save the schema's required checks rejected
    | Upstream(reason: string)            // mail transport or weather provider failure, passed through

  /** A settled promise: resolved with a value or rejected with an error. */
  datatype Result<+T> = Ok(value: T) | Err(error: Error)

  /** SubscriptionFrequency: the two cadences a subscriber may choose. */
  datatype Frequency = Hourly | Daily

  /** Current conditions as the weather lookup returns them. */
  datatype Weather = Weather(temperature: real, humidity: real, description: string)

  /** What the mail transport does with one message: the only effect of the mailer. */
  datatype Delivery = Delivered | Undeliverable(reason: string)
}

=== FILE: email.dfy ===
/** EmailService: the application URL, the two links, the two message records
    handed to the mailer, and the mailer itself as a fallible effect. */
module Email {
  import opened Base

  /** The HOST and PORT configuration values. */
  datatype Config = Config(host: string, port: string)

  const ConfirmRoute := "/api/confirm/"
  const UnsubscribeRoute := "/api/unsubscribe/"
  const ConfirmSubject := "Please confirm your Weather API subscription"
  const ConfirmTemplate := "./confirmation"
  const UpdateSubjectPrefix := "Weather update for "
  const UpdateTemplate := "./weather-update"

  /** The template variables of each message. The update message's render
      timestamp is not modelled. */
  datatype Context =
    | ConfirmationContext(url: string, city: string)
    | UpdateContext(city: string, temperature: real, humidity: real, description: string, unsubscribeUrl: string)

  /** The options object passed to `sendMail`. */
  datatype Mail = Mail(to: string, subject: string, template: string, context: Context)

  /** A message handed to the mailer, and how the returned promise settled. */
  datatype Sent = Sent(mail: Mail, outcome: Result<()>)

  /** `${HOST}:${PORT}`, computed once when the service is built. */
  function AppUrl(c: Config): string
  {
    c.host + ":" + c.port
  }

  /** With the HOST and PORT the email service's tests configure, the links
      point at http://localhost:3000. */
  lemma AppUrlOfLocalConfig()
    ensures AppUrl(Config("http://localhost", "3000")) == "http://localhost:3000"
    ensures Link(AppUrl(Config("http://localhost", "3000")), ConfirmRoute, "test-token-123")
            == "http://localhost:3000/api/confirm/test-token-123"
    ensures Link(AppUrl(Config("http://localhost", "3000")), UnsubscribeRoute, "test-token-xyz")
            == "http://localhost:3000/api/unsubscribe/test-token-xyz"
  {
  }

  function Link(appUrl: string, route: string, token: string): string
  {
    appUrl + route + token
  }

  /** The reading of a link the HTTP layer performs, taking the routes to be
      mounted under `/api`: the path parameter that follows `appUrl + route`,
      if the link starts that way. */
  function LinkToken(appUrl: string, route: string, url: string): (r: Option<string>)
    ensures r.Some? ==> url == Link(appUrl, route, r.value)
  {
    var prefix := appUrl + route;
    if |prefix| <= |url| && url[..|prefix|] == prefix then Some(url[|prefix|..]) else None
  }

  /** A link carries its token back: reading it recovers exactly the token
      it was built from. */
  lemma LinkRoundTrip(appUrl: string, route: string, token: string)
    ensures LinkToken(appUrl, route, Link(appUrl, route, token)) == Some(token)
  {
  }

  /** A confirmation link is never read as an unsubscribe link, nor the
      other way round: the two routes differ right after "/api/". */
  lemma RoutesDistinct(appUrl: string, token: string)
    ensures LinkToken(appUrl, UnsubscribeRoute, Link(appUrl, ConfirmRoute, token)).None?
    ensures LinkToken(appUrl, ConfirmRoute, Link(appUrl, UnsubscribeRoute, token)).None?
  {
    var c := Link(appUrl, ConfirmRoute, token);
    var u := Link(appUrl, UnsubscribeRoute, token);
    assert c[|appUrl| + 5] == 'c';
    assert u[|appUrl| + 5] == 'u';
    assert (appUrl + UnsubscribeRoute)[|appUrl| + 5] == 'u';
    assert (appUrl + ConfirmRoute)[|appUrl| + 5] == 'c';
  }

  /** `sendMail(mail)`: the transport's failure rejects the call unchanged. */
  function SendMail(mail: Mail, delivery: Delivery): (r: Sent)
    ensures r.mail == mail
    ensures r.outcome.Ok? <==> delivery.Delivered?
    ensures delivery.Undeliverable? ==> r.outcome == Err(Upstream(delivery.reason))
  {
    match delivery
    case Delivered => Sent(mail, Ok(()))
    case Undeliverable(reason) => Sent(mail, Err(Upstream(reason)))
  }

  /** `sendConfirmationEmail(email, city, token)`. */
  function SendConfirmationEmail(appUrl: string, email: string, city: string, token: string, delivery: Delivery): (r: Sent)
    ensures r.mail.to == email
    ensures r.mail.subject == ConfirmSubject && r.mail.template == ConfirmTemplate
    ensures r.mail.context.ConfirmationContext? && r.mail.context.city == city
    ensures LinkToken(appUrl, ConfirmRoute, r.mail.context.url) == Some(token)
    ensures r.outcome.Ok? <==> delivery.Delivered?
    ensures delivery.Undeliverable? ==> r.outcome == Err(Upstream(delivery.reason))
  {
    LinkRoundTrip(appUrl, ConfirmRoute, token);
    var url := Link(appUrl, ConfirmRoute, token);
    SendMail(Mail(email, ConfirmSubject, ConfirmTemplate, ConfirmationContext(url, city)), delivery)
  }

  /** `sendWeatherUpdateEmail(email, city, temperature, humidity, description, token)`. */
  function SendWeatherUpdateEmail(appUrl: string, email: string, city: string, w: Weather, token: string, delivery: Delivery): (r: Sent)
    ensures r.mail.to == email && r.mail.template == UpdateTemplate
    ensures |r.mail.subject| == |UpdateSubjectPrefix| + |city|
    ensures r.mail.subject[..|UpdateSubjectPrefix|] == UpdateSubjectPrefix
    ensures r.mail.subject[|UpdateSubjectPrefix|..] == city
    ensures r.mail.context.UpdateContext? && r.mail.context.city == city
    ensures r.mail.context.temperature == w.temperature && r.mail.context.humidity == w.humidity
    ensures r.mail.context.description == w.description
    ensures LinkToken(appUrl, UnsubscribeRoute, r.mail.context.unsubscribeUrl) == Some(token)
    ensures r.outcome.Ok? <==> delivery.Delivered?
    ensures delivery.Undeliverable? ==> r.outcome == Err(Upstream(delivery.reason))
  {
    LinkRoundTrip(appUrl, UnsubscribeRoute, token);
    var unsubscribeUrl := Link(appUrl, UnsubscribeRoute, token);
    var context := UpdateContext(city, w.temperature, w.humidity, w.description, unsubscribeUrl);
    SendMail(Mail(email, UpdateSubjectPrefix + city, UpdateTemplate, context), delivery)
  }
}

=== FILE: lifecycle.dfy ===
/** The coupling between the collection and the job registry, and the
    lifecycle promises that span several calls: every job belongs to a
    confirmed document and every confirmed document has its job, tokens stay
    unique, and the links the service mails lead back to the right record. */
module Lifecycle {
  import opened Base
  import opened Schema
  import Text
  import Store
  import Email
  import Scheduler
  import Migration
  import opened SubscriptionService

  /** The job keys are exactly the confirmed ids, and each job was built from
      its document. */
  ghost predicate JobsMatchConfirmed(svc: Service)
  {
    && svc.jobs.Keys == Store.ConfirmedIds(svc.store)
    && forall id :: id in svc.jobs ==> svc.jobs[id] == Scheduler.ScheduledJob(svc.store.records[id])
  }

  ghost predicate Invariant(svc: Service)
  {
    Store.Valid(svc.store) && Store.TokensUnique(svc.store) && JobsMatchConfirmed(svc)
  }

  /** Process start: rebuild the registry from the confirmed documents. The
      coupling holds for any collection; token uniqueness, which the schema
      does not enforce with an index, carries over when the collection has it. */
  method Boot(st: Store.Store) returns (svc: Service)
    requires Store.Valid(st)
    ensures JobsMatchConfirmed(svc)
    ensures Store.TokensUnique(st) ==> Invariant(svc)
    ensures svc.store == st
    ensures svc.jobs.Keys == Store.ConfirmedIds(st)
  {
    var jobs, _ := Scheduler.OnModuleInit(st, map[]);
    svc := Service(st, jobs);
  }

  /** A new document is unconfirmed and carries a token no other has. */
  lemma CreatePreservesInvariant(svc: Service, req: CreateRequest, env: Env, delivery: Delivery)
    requires Invariant(svc)
    ensures Invariant(Create(svc, req, env, delivery).service)
  {
  }

  /** Confirming adds the id to both sides of the coupling. */
  lemma ConfirmPreservesInvariant(svc: Service, token: string)
    requires Invariant(svc)
    ensures Invariant(Confirm(svc, token).service)
  {
  }

  /** Unsubscribing removes the id from both sides of the coupling. */
  lemma UnsubscribePreservesInvariant(svc: Service, token: string)
    requires Invariant(svc)
    ensures Invariant(Unsubscribe(svc, token).service)
  {
  }

  /** Migration 0 touches neither `confirmed` nor any field a job reads. */
  lemma MigrationPreservesInvariant(svc: Service)
    requires Invariant(svc)
    ensures Invariant(Service(Migration.Migration0(svc.store), svc.jobs))
  {
  }

  /** The run the application performs at start keeps the invariant whether
      the database call succeeds or fails. */
  lemma RunMigrationsPreservesInvariant(svc: Service, db: Migration.DbOutcome)
    requires Invariant(svc)
    ensures Invariant(Service(Migration.RunMigrations(svc.store, db).store, svc.jobs))
  {
  }

  /** After one successful confirm, a second confirm of the same token is
      rejected as already confirmed and changes nothing. */
  lemma ConfirmTwiceFails(svc: Service, token: string)
    requires Store.Valid(svc.store)
    requires Confirm(svc, token).result.Ok?
    ensures var again := Confirm(Confirm(svc, token).service, token);
            again.result == Err(Conflict(AlreadyConfirmed)) && again.service == Confirm(svc, token).service
  {
    var first := Confirm(svc, token);
    var s := first.result.value;
    var s0 := Store.FindOne(svc.store, token).value;
    assert s.id == s0.id;
    assert first.service.store.records[s.id].token == token;
    var found := Store.FindOne(first.service.store, token);
    assert found.Some?;
    assert found.value.id == s.id;
  }

  /** After a successful unsubscribe the token is unknown: a second
      unsubscribe, or a confirm, is rejected as not found. */
  lemma UnsubscribeTwiceFails(svc: Service, token: string)
    requires Invariant(svc)
    requires Unsubscribe(svc, token).result.Ok?
    ensures Unsubscribe(Unsubscribe(svc, token).service, token).result == Err(NotFound(TokenNotFound))
    ensures Confirm(Unsubscribe(svc, token).service, token).result == Err(NotFound(SubscriptionNotFound))
  {
  }

  /** Once a create has saved its document, any later create for the same
      email and city, in any letter case and with any frequency, is rejected
      as a duplicate, sends nothing and changes nothing. This holds even when
      the first create's confirmation email failed. */
  lemma CreateTwiceConflicts(svc: Service, req1: CreateRequest, req2: CreateRequest, env: Env, d1: Delivery, d2: Delivery)
    requires Store.Valid(svc.store)
    requires Text.Lower(req1.email) == Text.Lower(req2.email) && Text.Lower(req1.city) == Text.Lower(req2.city)
    requires Create(svc, req1, env, d1).sent != []
    ensures var first := Create(svc, req1, env, d1);
            Create(first.service, req2, env, d2) == Step(first.service, [], Err(Conflict(AlreadySubscribed)))
  {
    var first := Create(svc, req1, env, d1);
    var token := Token(env.hmac, req1.email, req1.city);
    assert Token(env.hmac, req2.email, req2.city) == token;
    var rec := NewRecord(svc.store.nextId, Whitelist(req1), token);
    assert first.service.store.records[rec.id].token == token;
    assert Store.TokenTaken(first.service.store, token);
  }

  /** As written, create keeps the invariant exactly when it does not save a
      document whose body set `confirmed: true`. Such a document is confirmed
      yet has no job until the next process start. */
  lemma CreateAsWrittenInvariant(svc: Service, req: CreateRequest, env: Env, delivery: Delivery)
    requires Invariant(svc)
    ensures Invariant(CreateAsWritten(svc, req, env, delivery).service) <==>
            !(&& !Store.TokenTaken(svc.store, Token(env.hmac, req.email, req.city))
              && req.email != [] && req.city != []
              && req.confirmed == Some(true))
  {
    var r := CreateAsWritten(svc, req, env, delivery);
    var token := Token(env.hmac, req.email, req.city);
    if !Store.TokenTaken(svc.store, token) && req.email != [] && req.city != [] {
      var rec := NewRecord(svc.store.nextId, req, token);
      if req.confirmed == Some(true) {
        assert rec.id in Store.ConfirmedIds(r.service.store);
        assert rec.id !in r.service.jobs;
      } else {
        assert Store.ConfirmedIds(r.service.store) == Store.ConfirmedIds(svc.store);
      }
    }
  }

  /** As written too, once a create has saved its document a later create for
      the same email and city is a conflict that sends nothing. */
  lemma CreateAsWrittenTwiceConflicts(svc: Service, req1: CreateRequest, req2: CreateRequest, env: Env, d1: Delivery, d2: Delivery)
    requires Store.Valid(svc.store)
    requires Text.Lower(req1.email) == Text.Lower(req2.email) && Text.Lower(req1.city) == Text.Lower(req2.city)
    requires CreateAsWritten(svc, req1, env, d1).service != svc
    ensures var first := CreateAsWritten(svc, req1, env, d1);
            CreateAsWritten(first.service, req2, env, d2) == Step(first.service, [], Err(Conflict(AlreadySubscribed)))
  {
    var first := CreateAsWritten(svc, req1, env, d1);
    var token := Token(env.hmac, req1.email, req1.city);
    assert Token(env.hmac, req2.email, req2.city) == token;
    var rec := NewRecord(svc.store.nextId, req1, token);
    assert first.service.store.records[rec.id].token == token;
  }

  /** The confirmation link mailed by a successful create, when followed,
      confirms exactly the new document and schedules its job. */
  lemma ConfirmationLinkConfirms(svc: Service, req: CreateRequest, env: Env, delivery: Delivery)
    requires Invariant(svc)
    requires Create(svc, req, env, delivery).sent != []
    ensures var c := Create(svc, req, env, delivery);
            var link := Email.LinkToken(env.AppUrl(), Email.ConfirmRoute, c.sent[0].mail.context.url);
            && link.Some?
            && var k := Confirm(c.service, link.value);
            && k.result.Ok?
            && k.result.value.id == svc.store.nextId
            && k.result.value.confirmed
            && k.service.jobs[svc.store.nextId] == Scheduler.ScheduledJob(k.result.value)
  {
    var c := Create(svc, req, env, delivery);
    CreatePreservesInvariant(svc, req, env, delivery);
    var token := Token(env.hmac, req.email, req.city);
    var id := svc.store.nextId;
    Store.FindOneUnique(c.service.store, token, id);
  }

  /** As written, the confirmation email's link ends in "undefined" instead
      of the token and its city is the token. Following the link is rejected
      as not found whenever no document carries the token "undefined". */
  lemma AsWrittenConfirmationLinkFails(svc: Service, req: CreateRequest, env: Env, delivery: Delivery)
    requires Store.Valid(svc.store)
    requires !Store.TokenTaken(svc.store, Token(env.hmac, req.email, req.city))
    requires !Store.TokenTaken(svc.store, Undefined)
    requires Token(env.hmac, req.email, req.city) != Undefined
    ensures var c := CreateAsWritten(svc, req, env, delivery);
            var link := Email.LinkToken(env.AppUrl(), Email.ConfirmRoute, c.sent[0].mail.context.url);
            && link == Some(Undefined)
            && Confirm(c.service, link.value).result == Err(NotFound(SubscriptionNotFound))
  {
  }

  /** As written, a create whose document the schema rejects (an empty city
      passes the request validation) still mails a confirmation link, yet
      saves nothing. */
  lemma AsWrittenMailsOnRejectedSave(svc: Service, req: CreateRequest, env: Env, delivery: Delivery)
    requires Store.Valid(svc.store)
    requires !Store.TokenTaken(svc.store, Token(env.hmac, req.email, req.city))
    requires req.city == []
    ensures var c := CreateAsWritten(svc, req, env, delivery);
            && |c.sent| == 1
            && c.service == svc
            && c.result.Err?
    ensures Create(svc, req, env, delivery).sent == []
  {
  }

  /** The unsubscribe link in any update a live job mails, when followed,
      removes exactly that job and deletes its document. */
  lemma UpdateLinkUnsubscribes(svc: Service, id: Id, appUrl: string, lookup: string -> Result<Weather>, delivery: Delivery)
    requires Invariant(svc)
    requires id in svc.jobs
    requires lookup(svc.jobs[id].target.city).Ok?
    ensures var f := Scheduler.Tick(appUrl, svc.jobs[id], lookup, delivery);
            var link := Email.LinkToken(appUrl, Email.UnsubscribeRoute, f.value.mail.context.unsubscribeUrl);
            && link.Some?
            && var u := Unsubscribe(svc, link.value);
            && u.result.Ok?
            && u.result.value.id == id
            && id !in u.service.jobs
            && id !in u.service.store.records
  {
  }

  /** A whole lifecycle from an empty collection: subscribe, confirm, then
      unsubscribe; afterwards the token is unknown. */
  lemma LifecycleScenario(env: Env)
    ensures var svc0 := Service(Store.Empty, map[]);
            var req := CreateRequest("a@x.com", "London", Daily);
            var c := Create(svc0, req, env, Delivered);
            && c.result.Ok? && !c.result.value.confirmed
            && var token := c.result.value.token;
            && var k := Confirm(c.service, token);
            && k.result.Ok? && k.result.value.confirmed
            && k.service.jobs.Keys == {c.result.value.id}
            && k.service.jobs[c.result.value.id].pattern == "0 9 * * *"
            && var u := Unsubscribe(k.service, token);
            && u.result.Ok?
            && u.service.jobs == map[] && u.service.store.records == map[]
            && Confirm(u.service, token).result == Err(NotFound(SubscriptionNotFound))
  {
  }
}

=== FILE: migration.dfy ===
/** DatabaseMigrationService: migration 0 stamps `migrationVersion = 0` on
    every document that lacks the field; `runMigrations` contains any
    failure by logging it. */
module Migration {
  import opened Base
  import opened Schema
  import Store

  /** One document under migration 0. */
  function Stamp(s: Subscription): Subscription
  {
    if s.migrationVersion.None? then s.(migrationVersion := Some(0)) else s
  }

  /** `migration0`: find the documents without the field and set it to 0 on
      exactly those. */
  function Migration0(st: Store.Store): (r: Store.Store)
    ensures r.nextId == st.nextId && r.records.Keys == st.records.Keys
    ensures forall id :: id in st.records ==> r.records[id].migrationVersion.Some?
    ensures forall id :: id in st.records && st.records[id].migrationVersion.None? ==> r.records[id].migrationVersion == Some(0)
    ensures forall id :: id in st.records && st.records[id].migrationVersion.Some? ==> r.records[id] == st.records[id]
    ensures forall id :: id in st.records ==> r.records[id].(migrationVersion := st.records[id].migrationVersion) == st.records[id]
  {
    st.(records := map id | id in st.records :: Stamp(st.records[id]))
  }

  /** Running the migration a second time finds nothing left to stamp. */
  lemma Migration0Idempotent(st: Store.Store)
    ensures Migration0(Migration0(st)) == Migration0(st)
  {
  }

  /** The outcome of the database calls migration 0 makes. */
  datatype DbOutcome = DbOk | DbFailure(reason: string)

  /** What `runMigrations` writes to the console. */
  datatype Log = Completed | ErrorLogged(reason: string)

  /** The collection after `runMigrations`, and what it logged. The type has
      no failure case: nothing propagates to the caller. A failing database
      call is taken to write nothing. */
  datatype MigrationRun = MigrationRun(store: Store.Store, log: Log)

  function RunMigrations(st: Store.Store, db: DbOutcome): (r: MigrationRun)
    ensures r.log.Completed? <==> db.DbOk?
    ensures r.log.Completed? ==> forall id :: id in r.store.records ==> r.store.records[id].migrationVersion.Some?
    ensures r.store.records.Keys == st.records.Keys && r.store.nextId == st.nextId
    ensures db.DbOk? ==> r.store == Migration0(st)
    ensures db.DbFailure? ==> r.store == st && r.log == ErrorLogged(db.reason)
  {
    match db
    case DbOk => MigrationRun(Migration0(st), Completed)
    case DbFailure(reason) => MigrationRun(st, ErrorLogged(reason))
  }
}

=== FILE: scheduler.dfy ===
/** SchedulerService: one recurring job per confirmed subscription, kept in the
    cron-job registry under the subscription's id. */
module Scheduler {
  import opened Base
  import opened Schema
  import Store
  import Email

  const HourlyPattern := "0 * * * *"
  const DailyPattern := "0 9 * * *"

  /** The frequency strategy table. */
  function CronPattern(f: Frequency): string
  {
    match f
    case Hourly => HourlyPattern
    case Daily => DailyPattern
  }

  /** Reading a pattern back as a frequency: the partner of the table. */
  function FrequencyOf(pattern: string): (r: Option<Frequency>)
    ensures r.Some? ==> CronPattern(r.value) == pattern
  {
    if pattern == HourlyPattern then Some(Hourly)
    else if pattern == DailyPattern then Some(Daily)
    else None
  }

  /** The table is one-to-one: each frequency has its own pattern, which
      reads back as that frequency. */
  lemma CronPatternRoundTrip(f: Frequency)
    ensures FrequencyOf(CronPattern(f)) == Some(f)
    ensures f == Hourly ==> CronPattern(f) == "0 * * * *"
    ensures f == Daily ==> CronPattern(f) == "0 9 * * *"
  {
  }

  /** The subscription fields the tick closure reads. */
  datatype Target = Target(email: string, city: string, token: string)

  /** A CronJob: its pattern, whether it has been started, and its target. */
  datatype Job = Job(pattern: string, running: bool, target: Target)

  /** The SchedulerRegistry's cron jobs, by job name. */
  type Registry = map<Id, Job>

  /** `new CronJob(pattern, tick)`: built but not yet started. */
  function NewJob(s: Subscription): Job
  {
    Job(CronPattern(s.frequency), false, Target(s.email, s.city, s.token))
  }

  /** The job `scheduleSubscription(s)` leaves behind: started. */
  function ScheduledJob(s: Subscription): Job
  {
    NewJob(s).(running := true)
  }

  /** `addCronJob(name, job)`: rejected when the name is already taken. */
  function AddCronJob(reg: Registry, name: Id, job: Job): (r: Result<Registry>)
    ensures r.Ok? <==> name !in reg
    ensures r.Ok? ==> r.value == reg[name := job]
  {
    if name in reg then Err(Conflict("Cron Job with the given name already exists")) else Ok(reg[name := job])
  }

  /** `deleteCronJob(name)`: stops and drops the job; rejected when there is none. */
  function DeleteCronJob(reg: Registry, name: Id): (r: Result<Registry>)
    ensures r.Ok? <==> name in reg
    ensures r.Ok? ==> r.value == reg - {name}
  {
    if name in reg then Ok(reg - {name}) else Err(NotFound("No Cron Job was found with the given name"))
  }

  /** `job.start()`. */
  function StartJob(reg: Registry, name: Id): Registry
    requires name in reg
  {
    reg[name := reg[name].(running := true)]
  }

  /** `scheduleSubscription(s)`: drop a job already registered under the id,
      register a new one, start it. */
  function Schedule(reg: Registry, s: Subscription): (r: Registry)
    ensures r.Keys == reg.Keys + {s.id}
    ensures r[s.id].running && r[s.id].pattern == CronPattern(s.frequency)
    ensures r[s.id].target == Target(s.email, s.city, s.token)
    ensures forall id :: id in reg && id != s.id ==> r[id] == reg[id]
  {
    var cleared := if s.id in reg then DeleteCronJob(reg, s.id).value else reg;
    match AddCronJob(cleared, s.id, NewJob(s))
    case Ok(added) => StartJob(added, s.id)
    case Err(_) => assert false; cleared
  }

  /** Adding under a free name and then deleting it gives the registry back. */
  lemma AddThenDelete(reg: Registry, name: Id, job: Job)
    requires name !in reg
    ensures AddCronJob(reg, name, job).Ok?
    ensures DeleteCronJob(AddCronJob(reg, name, job).value, name) == Ok(reg)
  {
    assert (reg[name := job]) - {name} == reg;
  }

  /** Deleting a job frees its name: the next add under it is accepted and
      leaves the new job in its place. */
  lemma DeleteFreesName(reg: Registry, name: Id, job: Job)
    requires name in reg
    ensures DeleteCronJob(reg, name).Ok?
    ensures AddCronJob(DeleteCronJob(reg, name).value, name, job) == Ok(reg[name := job])
  {
    assert (reg - {name})[name := job] == reg[name := job];
  }

  /** Without the presence check, replacing a job would fail: the registry
      refuses a second job under the same name. */
  lemma AddWithoutDeleteFails(reg: Registry, s: Subscription)
    requires s.id in reg
    ensures AddCronJob(reg, s.id, NewJob(s)).Err?
  {
  }

  /** `removeSubscription(s)`: drop the job if there is one; no-op otherwise. */
  function Remove(reg: Registry, s: Subscription): (r: Registry)
    ensures r.Keys == reg.Keys - {s.id}
    ensures forall id :: id in r ==> r[id] == reg[id]
    ensures s.id !in reg ==> r == reg
  {
    if s.id in reg then DeleteCronJob(reg, s.id).value else reg
  }

  /** Scheduling the same subscription again changes nothing: a replaced job
      is indistinguishable from the one it replaces. */
  lemma ScheduleIdempotent(reg: Registry, s: Subscription)
    ensures Schedule(Schedule(reg, s), s) == Schedule(reg, s)
  {
  }

  /** Removing after scheduling is the same as removing alone: scheduling
      touches no other id. */
  lemma RemoveAfterSchedule(reg: Registry, s: Subscription)
    ensures Remove(Schedule(reg, s), s) == Remove(reg, s)
    ensures s.id !in reg ==> Remove(Schedule(reg, s), s) == reg
  {
  }

  /** Confirmed documents with id below `bound`. */
  function ConfirmedBelow(st: Store.Store, bound: nat): set<Id>
  {
    set id | id in st.records && id < bound && st.records[id].confirmed
  }

  /** After scheduling the confirmed documents below `bound`, `jobs` holds
      their jobs on top of `reg`. */
  ghost predicate ScheduledBelow(st: Store.Store, reg: Registry, jobs: Registry, bound: nat)
  {
    && jobs.Keys == reg.Keys + ConfirmedBelow(st, bound)
    && (forall id :: id in ConfirmedBelow(st, bound) ==> jobs[id] == ScheduledJob(st.records[id]))
    && (forall id :: id in jobs && id !in ConfirmedBelow(st, bound) ==> jobs[id] == reg[id])
  }

  /** `order` lists, increasing, exactly the confirmed ids below `bound`. */
  ghost predicate ListsConfirmedBelow(st: Store.Store, order: seq<Id>, bound: nat)
  {
    && (forall k :: 0 <= k < |order| ==> order[k] < bound)
    && (forall a, b :: 0 <= a < b < |order| ==> order[a] < order[b])
    && (forall id :: id in order <==> id in ConfirmedBelow(st, bound))
  }

  lemma ScheduledBelowStep(st: Store.Store, reg: Registry, jobs: Registry, i: nat)
    requires Store.Valid(st) && i < st.nextId
    requires ScheduledBelow(st, reg, jobs, i)
    ensures i in st.records && st.records[i].confirmed ==> ScheduledBelow(st, reg, Schedule(jobs, st.records[i]), i + 1)
    ensures !(i in st.records && st.records[i].confirmed) ==> ScheduledBelow(st, reg, jobs, i + 1)
  {
  }

  lemma ListsConfirmedBelowStep(st: Store.Store, order: seq<Id>, i: nat)
    requires Store.Valid(st) && i < st.nextId
    requires ListsConfirmedBelow(st, order, i)
    ensures i in st.records && st.records[i].confirmed ==> ListsConfirmedBelow(st, order + [i], i + 1)
    ensures !(i in st.records && st.records[i].confirmed) ==> ListsConfirmedBelow(st, order, i + 1)
  {
  }

  /** `onModuleInit`: schedule every confirmed document, in natural order.
      `order` lists the ids in the order they were scheduled. */
  method OnModuleInit(st: Store.Store, reg: Registry) returns (jobs: Registry, order: seq<Id>)
    requires Store.Valid(st)
    ensures jobs.Keys == reg.Keys + Store.ConfirmedIds(st)
    ensures forall id :: id in Store.ConfirmedIds(st) ==> jobs[id] == ScheduledJob(st.records[id])
    ensures forall id :: id in jobs && id !in Store.ConfirmedIds(st) ==> jobs[id] == reg[id]
    ensures forall i, j :: 0 <= i < j < |order| ==> order[i] < order[j]
    ensures forall id :: id in order <==> id in Store.ConfirmedIds(st)
  {
    jobs, order := reg, [];
    var i := 0;
    assert ConfirmedBelow(st, 0) == {};
    while i < st.nextId
      invariant 0 <= i <= st.nextId
      invariant ScheduledBelow(st, reg, jobs, i)
      invariant ListsConfirmedBelow(st, order, i)
    {
      ScheduledBelowStep(st, reg, jobs, i);
      ListsConfirmedBelowStep(st, order, i);
      if i in st.records && st.records[i].confirmed {
        jobs := Schedule(jobs, st.records[i]);
        order := order + [i];
      }
      i := i + 1;
    }
    assert ConfirmedBelow(st, i) == Store.ConfirmedIds(st);
  }

  /** One firing of the job's tick: look up the weather for the target's
      city, then mail the update. `lookup` is the weather service and
      `delivery` the mail transport. A failure settles this firing only. */
  function Tick(appUrl: string, job: Job, lookup: string -> Result<Weather>, delivery: Delivery): (r: Option<Email.Sent>)
    ensures lookup(job.target.city).Err? <==> r.None?
    ensures r.Some? ==>
              var w := lookup(job.target.city).value;
              && r.value.mail.to == job.target.email
              && r.value.mail.context.UpdateContext?
              && r.value.mail.context.city == job.target.city
              && r.value.mail.context.temperature == w.temperature
              && r.value.mail.context.humidity == w.humidity
              && r.value.mail.context.description == w.description
              && Email.LinkToken(appUrl, Email.UnsubscribeRoute, r.value.mail.context.unsubscribeUrl) == Some(job.target.token)
              && (r.value.outcome.Ok? <==> delivery.Delivered?)
              && (delivery.Undeliverable? ==> r.value.outcome == Err(Upstream(delivery.reason)))
  {
    match lookup(job.target.city)
    case Err(_) => None
    case Ok(w) => Some(Email.SendWeatherUpdateEmail(appUrl, job.target.email, job.target.city, w, job.target.token, delivery))
  }
}

=== FILE: schema.dfy ===
/** The persisted Subscription document (subscription.schema.ts) and the
    body of a subscribe request (subscription.dto.ts). */
module Schema {
  import opened Base
  import Text

  /** Stands for a document's `_id`; the scheduler uses it as the job name. */
  type Id = nat

  /** The subscribe request body. The DTO declares email, city and
      frequency; a body may also carry the schema's other writable paths,
      `confirmed` and `migrationVersion`, which the request validation does
      not strip. None means the body leaves the property out. */
  datatype CreateRequest = CreateRequest(
    email: string,
    city: string,
    frequency: Frequency,
    confirmed: Option<bool> := None,
    migrationVersion: Option<int> := None)

  /** The body cut down to the DTO's declared properties. */
  function Whitelist(req: CreateRequest): (r: CreateRequest)
    ensures r.confirmed.None? && r.migrationVersion.None?
    ensures r.email == req.email && r.city == req.city && r.frequency == req.frequency
  {
    CreateRequest(req.email, req.city, req.frequency)
  }

  /** One stored subscription. `migrationVersion` is None for a legacy
      document written before the field existed. */
  datatype Subscription = Subscription(
    id: Id,
    email: string,
    city: string,
    frequency: Frequency,
    confirmed: bool,
    token: string,
    migrationVersion: Option<int>)

  /** The document `new Model({...request, token})` builds: the email goes
      through the schema's lower-case setter; `confirmed` and
      `migrationVersion` take their declared defaults unless the body sets
      them. Properties outside the schema are dropped. */
  function NewRecord(id: Id, req: CreateRequest, token: string): (r: Subscription)
    ensures r.id == id && r.token == token
    ensures Text.IsLowerCase(r.email) && Text.Lower(r.email) == Text.Lower(req.email)
    ensures r.city == req.city && r.frequency == req.frequency
    ensures req.confirmed.None? ==> !r.confirmed
    ensures req.confirmed.Some? ==> r.confirmed == req.confirmed.value
    ensures req.migrationVersion.None? ==> r.migrationVersion == Some(0)
    ensures req.migrationVersion.Some? ==> r.migrationVersion == req.migrationVersion
  {
    Text.LowerIsLowerCase(req.email);
    var confirmed := match req.confirmed case Some(c) => c case None => false;
    var version := match req.migrationVersion case Some(v) => Some(v) case None => Some(0);
    Subscription(id, Text.Lower(req.email), req.city, req.frequency, confirmed, token, version)
  }

  /** A document built from the DTO's fields alone depends only on email,
      city and frequency: whatever else the body carried, it is unconfirmed
      and at version 0. */
  lemma WhitelistIgnoresExtras(id: Id, req1: CreateRequest, req2: CreateRequest, token: string)
    requires req1.email == req2.email && req1.city == req2.city && req1.frequency == req2.frequency
    ensures NewRecord(id, Whitelist(req1), token) == NewRecord(id, Whitelist(req2), token)
    ensures !NewRecord(id, Whitelist(req1), token).confirmed
    ensures NewRecord(id, Whitelist(req1), token).migrationVersion == Some(0)
  {
  }

  /** The required paths a document leaves empty, in schema order. A required
      string path rejects the empty string; frequency is always one of the
      enumeration's values. */
  function MissingPaths(s: Subscription): seq<string>
  {
    (if s.email == [] then ["email"] else []) + (if s.city == [] then ["city"] else [])
  }

  /** Schema validation run by `save()`. */
  function Validate(s: Subscription): (r: Result<Subscription>)
    ensures r.Ok? <==> s.email != [] && s.city != []
    ensures r.Ok? ==> r.value == s
    ensures r.Err? ==>
              && r.error.ValidationFailed?
              && 1 <= |r.error.paths|
              && ("email" in r.error.paths <==> s.email == [])
              && ("city" in r.error.paths <==> s.city == [])
              && (forall p :: p in r.error.paths ==> p == "email" || p == "city")
  {
    var missing := MissingPaths(s);
    if missing == [] then Ok(s) else Err(ValidationFailed(missing))
  }
}

=== FILE: store.dfy ===
/** The subscription collection as the services see it through the Mongoose
    model: `findOne({token})`, `save()` and `findByIdAndDelete(id)`. Ids are
    handed out in increasing order, so natural (insertion) order is id order. */
module Store {
  import opened Base
  import opened Schema

  /** The collection: documents by id, and the next id to hand out. */
  datatype Store = Store(records: map<Id, Subscription>, nextId: Id)

  const Empty: Store := Store(map[], 0)

  /** Every document sits under its own id, and every id was handed out. */
  ghost predicate Valid(st: Store)
  {
    forall id :: id in st.records ==> id < st.nextId && st.records[id].id == id
  }

  /** Some document carries this token. */
  ghost predicate TokenTaken(st: Store, token: string)
  {
    exists id :: id in st.records && st.records[id].token == token
  }

  /** No two documents share a token. */
  ghost predicate TokensUnique(st: Store)
  {
    forall i, j :: i in st.records && j in st.records && st.records[i].token == st.records[j].token ==> i == j
  }

  /** `find({confirmed: true})`, as a set of ids. */
  function ConfirmedIds(st: Store): set<Id>
  {
    set id | id in st.records && st.records[id].confirmed
  }

  /** Scan of ids `from`, `from + 1`, ... below `nextId` for the first
      document with the token. */
  function FindFrom(st: Store, token: string, from: Id): (r: Option<Subscription>)
    requires Valid(st)
    ensures r.Some? ==>
              && from <= r.value.id < st.nextId
              && r.value.id in st.records && st.records[r.value.id] == r.value && r.value.token == token
    ensures r.Some? ==> forall id :: from <= id < r.value.id && id in st.records ==> st.records[id].token != token
    ensures r.None? ==> forall id :: from <= id < st.nextId && id in st.records ==> st.records[id].token != token
    decreases st.nextId - from
  {
    if from >= st.nextId then None
    else if from in st.records && st.records[from].token == token then
      Some(st.records[from])
    else FindFrom(st, token, from + 1)
  }

  /** `findOne({token})`: the first document in natural order carrying the
      token, or null. */
  function FindOne(st: Store, token: string): (r: Option<Subscription>)
    requires Valid(st)
    ensures r.None? <==> !TokenTaken(st, token)
    ensures r.Some? ==> r.value.id in st.records && st.records[r.value.id] == r.value && r.value.token == token
    ensures r.Some? ==> forall id :: id in st.records && id < r.value.id ==> st.records[id].token != token
  {
    FindFrom(st, token, 0)
  }

  /** With unique tokens, the document found is the only one with the token. */
  lemma FindOneUnique(st: Store, token: string, id: Id)
    requires Valid(st) && TokensUnique(st)
    requires id in st.records && st.records[id].token == token
    ensures FindOne(st, token) == Some(st.records[id])
  {
  }

  /** `save()`: write the document under its id (insert or overwrite). */
  function Save(st: Store, s: Subscription): (r: Store)
    requires Valid(st)
    ensures Valid(r)
    ensures r.records == st.records[s.id := s]
    ensures s.id in st.records ==> r.nextId == st.nextId
  {
    Store(st.records[s.id := s], if s.id < st.nextId then st.nextId else s.id + 1)
  }

  /** `findByIdAndDelete(id)`: remove the document, yielding it (or null). */
  function DeleteById(st: Store, id: Id): (r: (Store, Option<Subscription>))
    requires Valid(st)
    ensures Valid(r.0)
    ensures r.0.records.Keys == st.records.Keys - {id}
    ensures forall k :: k in r.0.records ==> r.0.records[k] == st.records[k]
    ensures id in st.records ==> r.1 == Some(st.records[id])
    ensures id !in st.records ==> r.1 == None && r.0.records == st.records
  {
    (st.(records := st.records - {id}), if id in st.records then Some(st.records[id]) else None)
  }
}

=== FILE: subscription_service.dfy ===
/** SubscriptionService: create, confirm and unsubscribe as transitions of the
    service state (the subscription collection plus the scheduler's job
    registry). Each transition also reports the messages it handed to the
    mailer and how the call settled.

    The service as written never consults the weather service when a
    subscription is created: there is no city check, so an unknown city is
    stored like any other. */
module SubscriptionService {
  import opened Base
  import opened Schema
  import Text
  import Store
  import Email
  import Scheduler

  const AlreadySubscribed := "Email already subscribed"
  const SubscriptionNotFound := "Subscription not found"
  const AlreadyConfirmed := "Already confirmed"
  const TokenNotFound := "Token not found"

  /** What a JavaScript template literal renders for a missing argument. */
  const Undefined := "undefined"

  /** The service's environment: HMAC-SHA256 under the process secret, taken
      as an arbitrary function of the key string, and the HOST and PORT
      configuration the email service builds its links from. */
  datatype Env = Env(hmac: string -> string, config: Email.Config) {
    function AppUrl(): string
    {
      Email.AppUrl(config)
    }
  }

  /** The collection and the live jobs. */
  datatype Service = Service(store: Store.Store, jobs: Scheduler.Registry)

  /** A transition: the new state, the messages handed to the mailer, and the
      settled result. */
  datatype Step<T> = Step(service: Service, sent: seq<Email.Sent>, result: Result<T>)

  /** The string the token is an HMAC of. */
  function TokenKey(email: string, city: string): string
  {
    Text.Lower(email) + ":" + Text.Lower(city)
  }

  /** `generateToken(email, city)`. */
  function Token(hmac: string -> string, email: string, city: string): string
  {
    hmac(TokenKey(email, city))
  }

  /** The token ignores letter case in both the email and the city. */
  lemma TokenIgnoresCase(hmac: string -> string, email: string, city: string)
    ensures Token(hmac, email, city) == Token(hmac, Text.Lower(email), Text.Lower(city))
  {
    Text.LowerIsLowerCase(email);
    Text.LowerIsLowerCase(city);
  }

  /** Two (email, city) pairs share a token key exactly when they agree up to
      letter case, provided the emails contain no ':'. */
  lemma TokenKeyInjective(e1: string, c1: string, e2: string, c2: string)
    requires ':' !in e1 && ':' !in e2
    ensures TokenKey(e1, c1) == TokenKey(e2, c2) <==> Text.Lower(e1) == Text.Lower(e2) && Text.Lower(c1) == Text.Lower(c2)
  {
    if TokenKey(e1, c1) == TokenKey(e2, c2) {
      Text.LowerKeepsColons(e1);
      Text.LowerKeepsColons(e2);
      Text.JoinInjective(Text.Lower(e1), Text.Lower(c1), Text.Lower(e2), Text.Lower(c2), ':');
    }
  }

  /** `createSubscription(request)` with the three intended corrections: the
      document is built from the DTO's declared properties only, the save is
      awaited before the confirmation email, and the email is sent with
      (email, city, token). A rejected save sends nothing. Once the record is
      saved the email is sent; if the mailer fails the record stays and the
      call rejects with the mailer's error. */
  function Create(svc: Service, req: CreateRequest, env: Env, delivery: Delivery): (r: Step<Subscription>)
    requires Store.Valid(svc.store)
    ensures Store.Valid(r.service.store)
    ensures r.service.jobs == svc.jobs
    ensures Store.TokenTaken(svc.store, Token(env.hmac, req.email, req.city)) <==> r.result == Err(Conflict(AlreadySubscribed))
    ensures r.sent == [] <==> r.service == svc
    ensures r.result.Err? && !r.result.error.Upstream? ==> r.sent == []
    ensures !Store.TokenTaken(svc.store, Token(env.hmac, req.email, req.city)) && (req.email == [] || req.city == []) ==>
              r.result.Err? && r.result.error.ValidationFailed?
    ensures !Store.TokenTaken(svc.store, Token(env.hmac, req.email, req.city)) && req.email != [] && req.city != [] ==>
              r.sent != []
    ensures r.sent != [] && delivery.Undeliverable? ==> r.result == Err(Upstream(delivery.reason))
    ensures r.result.Ok? ==> !r.result.value.confirmed
    ensures r.sent != [] ==>
              var token := Token(env.hmac, req.email, req.city);
              var rec := NewRecord(svc.store.nextId, Whitelist(req), token);
              && rec.id !in svc.store.records
              && r.service.store.records == svc.store.records[rec.id := rec]
              && |r.sent| == 1
              && r.sent[0].mail.to == req.email
              && r.sent[0].mail.context.ConfirmationContext?
              && r.sent[0].mail.context.city == req.city
              && Email.LinkToken(env.AppUrl(), Email.ConfirmRoute, r.sent[0].mail.context.url) == Some(token)
              && (r.result.Ok? <==> delivery.Delivered?)
              && (r.result.Ok? ==> r.result.value == rec)
    ensures r.result.Ok? ==> r.sent != []
  {
    var token := Token(env.hmac, req.email, req.city);
    match Store.FindOne(svc.store, token)
    case Some(_) => Step(svc, [], Err(Conflict(AlreadySubscribed)))
    case None =>
      var rec := NewRecord(svc.store.nextId, Whitelist(req), token);
      match Validate(rec)
      case Err(e) => Step(svc, [], Err(e))
      case Ok(_) =>
        var saved := svc.(store := Store.Save(svc.store, rec));
        var sent := Email.SendConfirmationEmail(env.AppUrl(), req.email, req.city, token, delivery);
        Step(saved, [sent], if sent.outcome.Ok? then Ok(rec) else Err(sent.outcome.error))
  }

  /** `createSubscription(request)` exactly as written: the whole body is
      spread into the new document, so a body that sets `confirmed` or
      `migrationVersion` sets them on the document; `save()` is started but
      not awaited, so the confirmation email goes out whether or not the save
      is rejected; and `sendConfirmationEmail` receives two arguments, which
      bind to its (email, city, token) parameters as email, city := the
      token, token := undefined. */
  function CreateAsWritten(svc: Service, req: CreateRequest, env: Env, delivery: Delivery): (r: Step<Subscription>)
    requires Store.Valid(svc.store)
    ensures Store.Valid(r.service.store)
    ensures r.service.jobs == svc.jobs
    ensures Store.TokenTaken(svc.store, Token(env.hmac, req.email, req.city)) <==> r.result == Err(Conflict(AlreadySubscribed))
    ensures r.result == Err(Conflict(AlreadySubscribed)) ==> r.service == svc && r.sent == []
    ensures !Store.TokenTaken(svc.store, Token(env.hmac, req.email, req.city)) ==>
              && |r.sent| == 1
              && r.sent[0].mail.to == req.email
              && r.sent[0].mail.context.ConfirmationContext?
              && r.sent[0].mail.context.city == Token(env.hmac, req.email, req.city)
              && Email.LinkToken(env.AppUrl(), Email.ConfirmRoute, r.sent[0].mail.context.url) == Some(Undefined)
    ensures !Store.TokenTaken(svc.store, Token(env.hmac, req.email, req.city)) && (req.email == [] || req.city == []) ==>
              && r.service == svc
              && (delivery.Delivered? ==> r.result.Err? && r.result.error.ValidationFailed?)
    ensures !Store.TokenTaken(svc.store, Token(env.hmac, req.email, req.city)) && req.email != [] && req.city != [] ==>
              var rec := NewRecord(svc.store.nextId, req, Token(env.hmac, req.email, req.city));
              && rec.id !in svc.store.records
              && r.service.store.records == svc.store.records[rec.id := rec]
              && (delivery.Delivered? ==> r.result == Ok(rec))
    ensures !Store.TokenTaken(svc.store, Token(env.hmac, req.email, req.city)) && delivery.Undeliverable? ==>
              r.result == Err(Upstream(delivery.reason))
  {
    var token := Token(env.hmac, req.email, req.city);
    match Store.FindOne(svc.store, token)
    case Some(_) => Step(svc, [], Err(Conflict(AlreadySubscribed)))
    case None =>
      var rec := NewRecord(svc.store.nextId, req, token);
      // The save is launched here and settles later; it is taken to have
      // written the document (or been rejected) before the email is sent.
      var saved := Validate(rec);
      var store := if saved.Ok? then Store.Save(svc.store, rec) else svc.store;
      var sent := Email.SendConfirmationEmail(env.AppUrl(), req.email, token, Undefined, delivery);
      var result :=
        if sent.outcome.Err? then Err(sent.outcome.error)
        else if saved.Err? then Err(saved.error)
        else Ok(rec);
      Step(svc.(store := store), [sent], result)
  }

  /** `confirm(token)`: the one false-to-true transition, saved, then the
      saved document is scheduled. */
  function Confirm(svc: Service, token: string): (r: Step<Subscription>)
    requires Store.Valid(svc.store)
    ensures Store.Valid(r.service.store)
    ensures r.sent == []
    ensures r.result.Err? ==> r.service == svc
    ensures !Store.TokenTaken(svc.store, token) <==> r.result == Err(NotFound(SubscriptionNotFound))
    ensures r.result == Err(Conflict(AlreadyConfirmed)) <==>
              Store.FindOne(svc.store, token).Some? && Store.FindOne(svc.store, token).value.confirmed
    ensures Store.FindOne(svc.store, token).Some? && !Store.FindOne(svc.store, token).value.confirmed ==>
              r.result.Ok? && r.result.value.id == Store.FindOne(svc.store, token).value.id
    ensures r.result.Ok? ==>
              var s := r.result.value;
              && s.id in svc.store.records
              && !svc.store.records[s.id].confirmed
              && s == svc.store.records[s.id].(confirmed := true)
              && s.token == token
              && r.service.store.records == svc.store.records[s.id := s]
              && r.service.jobs.Keys == svc.jobs.Keys + {s.id}
              && r.service.jobs[s.id] == Scheduler.ScheduledJob(s)
              && (forall id :: id in svc.jobs && id != s.id ==> r.service.jobs[id] == svc.jobs[id])
  {
    match Store.FindOne(svc.store, token)
    case None => Step(svc, [], Err(NotFound(SubscriptionNotFound)))
    case Some(s) =>
      if s.confirmed then Step(svc, [], Err(Conflict(AlreadyConfirmed)))
      else
        var saved := s.(confirmed := true);
        Step(Service(Store.Save(svc.store, saved), Scheduler.Schedule(svc.jobs, saved)), [], Ok(saved))
  }

  /** `unsubscribe(token)`: drop the job first, then delete the document by
      id; the call resolves with the deleted document. */
  function Unsubscribe(svc: Service, token: string): (r: Step<Subscription>)
    requires Store.Valid(svc.store)
    ensures Store.Valid(r.service.store)
    ensures r.sent == []
    ensures !Store.TokenTaken(svc.store, token) <==> r.result.Err?
    ensures r.result.Err? ==> r.result.error == NotFound(TokenNotFound) && r.service == svc
    ensures r.result.Ok? ==>
              var s := r.result.value;
              && s.token == token
              && Store.FindOne(svc.store, token) == Some(s)
              && s.id in svc.store.records && svc.store.records[s.id] == s
              && r.service.store.records.Keys == svc.store.records.Keys - {s.id}
              && (forall id :: id in r.service.store.records ==> r.service.store.records[id] == svc.store.records[id])
              && r.service.jobs.Keys == svc.jobs.Keys - {s.id}
              && (forall id :: id in r.service.jobs ==> r.service.jobs[id] == svc.jobs[id])
  {
    match Store.FindOne(svc.store, token)
    case None => Step(svc, [], Err(NotFound(TokenNotFound)))
    case Some(s) =>
      var jobs := Scheduler.Remove(svc.jobs, s);
      var (store, deleted) := Store.DeleteById(svc.store, s.id);
      Step(Service(store, jobs), [], Ok(deleted.value))
  }
}

=== FILE: text.dfy ===
/** String helpers: the lower-casing applied to emails (schema setter) and to
    the token key. Only the ASCII letters A-Z are folded. */
module Text {

  function LowerChar(c: char): char
  {
    if 'A' <= c <= 'Z' then (c as int + 32) as char else c
  }

  /** String.prototype.toLowerCase, restricted to ASCII letters. */
  function Lower(s: string): string
  {
    seq(|s|, i requires 0 <= i < |s| => LowerChar(s[i]))
  }

  /** A string with no upper-case ASCII letter. */
  predicate IsLowerCase(s: string)
  {
    forall i :: 0 <= i < |s| ==> !('A' <= s[i] <= 'Z')
  }

  /** Lowering yields a lower-case string, and lowering it again changes nothing. */
  lemma LowerIsLowerCase(s: string)
    ensures IsLowerCase(Lower(s))
    ensures Lower(Lower(s)) == Lower(s)
  {
  }

  /** Lowering folds letters only: a separator such as ':' is neither
      introduced nor removed. */
  lemma LowerKeepsColons(s: string)
    ensures ':' in Lower(s) <==> ':' in s
  {
    if ':' in s {
      var i :| 0 <= i < |s| && s[i] == ':';
      assert Lower(s)[i] == ':';
    }
  }

  /** Joining with a separator that the left part does not contain can be
      undone: the separator's first occurrence marks the split. */
  lemma JoinInjective(a1: string, b1: string, a2: string, b2: string, sep: char)
    requires sep !in a1 && sep !in a2
    requires a1 + [sep] + b1 == a2 + [sep] + b2
    ensures a1 == a2 && b1 == b2
  {
    var j1 := a1 + [sep] + b1;
    var j2 := a2 + [sep] + b2;
    assert forall k :: 0 <= k < |a1| ==> j1[k] == a1[k];
    assert forall k :: 0 <= k < |a2| ==> j2[k] == a2[k];
    assert j1[|a1|] == sep && j2[|a2|] == sep;
    assert |a1| == |a2|;
    assert a1 == j1[..|a1|] == j2[..|a2|] == a2;
    assert b1 == j1[|a1| + 1..] == j2[|a2| + 1..] == b2;
  }
}
